=== FILE: README.md ===
# Slideshow controller — a Dafny model

This project models the slideshow controller of a small widget library
(`src/slideapi.js`). `initSlideshow(el)` turns the non-script children of a
container into a cycling sequence of slides. It shows one slide at a time and
marks it with a visual effect looked up by name in a shared effect registry.
It advances on a timer and registers its control object in a shared instance
registry under the container's id.

The model is functional. A slideshow is an immutable `Slideshow` value holding:

- the configuration (`fx`, `timeout`, `autoheight`, `meta`, `id`);
- the current index;
- the ordered slide records;
- the container's presentation state;
- the autoplay timers.

Every operation of the controller is a pure transition on that value:
`show`, `next`, `prev`, `go`, `play`, `pause`, `destroy`, `getCurrentSlide`,
`getSlideMeta`, `addSlide`, `removeSlide` and `setFx`. The two registries are
maps passed in and returned: effect name ↦ marker, and id ↦ control object.

Modules, one per file:

- `JsValues` (`js_values.dfy`): the runtime values the code relies on. These are `Option`, a thrown `TypeError`, JavaScript's truncating `%` producing an integer or NaN, and the decimal numeral `String(n)` with its inverse.
- `Dom` (`dom.dfy`): the element record, which has a tag, an inline `display` and `opacity`, a class set, a `dataset`, and the height layout gives it. It also holds the `data-*` keys and the count of displayed slides.
- `Effects` (`effects.dfy`): effects as abstract markers and the effect registry. `fade` adds `fx-fade`, `slide` adds `fx-slide`, and `none` sets opacity 1.
- `Controller` (`controller.dfy`): the per-instance state and every operation on it.
- `SlideshowLaws` (`laws.dfy`): properties that relate several operations.
- `Instances` (`instances.dfy`): the instance registry, `initSlideshow`, `getSlideshow` and `destroy`.
- `Findings` (`findings.dfy`): four defects of the code, each modelled as written, with the input that exposes it.

Conventions:

- A slide's ordinal is stored as the text `String(k)` under `slideIndex`, as the code does.
- Metadata given to `addSlide` is merged last into the dataset, so it can overwrite `slideIndex`, `slideState` or `caption`. That is what `node.dataset[k] = v` does.
- An element's identity is what `show` and `removeSlide` never rewrite: its tag, its layout height, and every data attribute except `slideState` (`Dom.SameElement`). Initialisation and `addSlide` do rewrite `slideIndex` and any metadata key; their contracts state those changes.

Where the code departs from what the controller is evidently meant to do,
the model follows the code:

- Ordinals are never renumbered. After a removal, a slide added next can repeat an existing ordinal (`SlideshowLaws.RemoveThenAddRepeatsOrdinal`).
- `addSlide` does not re-render. Adding a slide to an empty slideshow therefore leaves no slide displayed, even though a slideshow evidently means to show exactly one slide (`SlideshowLaws.AddToEmptyShowsNothing`). The invariant the model proves for every operation (`Controller.Valid`) is the one the corrected operations keep: the index is in range, and every slide other than the current one is hidden. The code as written breaks it (see "## Findings": `go(-1)` and the NaN index). After any corrected operation that renders, exactly one slide is displayed whenever there is a slide.
- A malformed timeout attribute gives NaN through `parseInt`; it does not fall back to 3000. The model takes the timeout already parsed, so only "absent ⇒ 3000" is modelled.
- `destroy()` empties the container. The closure's slide list is left as it was, so the model's `Controller.Content` (the slides in the container) is what becomes empty.

## Model

| member | source | states |
|---|---|---|
| `JsValues.JsRem` | src/slideapi.js:68 | JavaScript `%` by a slide count: NaN exactly when the count is 0, otherwise a remainder of magnitude below the count with the dividend's sign, equal to the Euclidean remainder for a non-negative dividend, and always congruent to the dividend modulo the count (so `-1 % 3` is `-1`) |
| `JsValues.DecimalRoundTrip` | src/slideapi.js:43 | the numeral `String(k)` written as a slide's ordinal reads back as `k`, so different positions get different ordinals |
| `JsValues.DecimalInjective` | src/slideapi.js:142 | distinct counts give distinct ordinal texts |
| `Effects.RegisterEffect` | src/slideapi.js:19-21 | after registration the name looks up the new effect, whether it was new or overwritten, and every other name looks up what it did before |
| `Effects.BuiltinMarkers` | src/slideapi.js:8-12 | exactly `fade`, `slide` and `none` are pre-registered, with markers `fx-fade`, `fx-slide` and opacity 1 |
| `Controller.Show` | src/slideapi.js:51-62 | only slide `i` is displayed and all others have `display: none`; `fx-fade`/`fx-slide` are stripped from every other slide and only slide `i` gains the registered effect's marker (none if unregistered); with metadata on exactly slide `i` is `active` and the container records `i`; with auto-height the container takes slide `i`'s height; slide identity, config and index are kept; no slides means no change |
| `Controller.Succ` | src/slideapi.js:68 | the index after `next` is in `[0, n)`, one more than before except that the last slide wraps to 0 |
| `Controller.Pred` | src/slideapi.js:76 | the index after `prev` is in `[0, n)`, one less than before except that slide 0 wraps to `n - 1` |
| `Controller.Wrap` | src/slideapi.js:85 | the target of `go(i)` is in `[0, n)`, congruent to `i` modulo `n`, and equal to `i` when `i` is already a slide |
| `Controller.Next` | src/slideapi.js:67-70 | with slides: the index moves forward one with wrap-around, stays in range, and the slides are re-rendered exactly as `show` of the new index renders them (same elements, marker and `active` state on the new slide); without slides: no change |
| `Controller.Prev` | src/slideapi.js:75-78 | with slides: the index moves back one, from 0 to the last slide, and the slides are re-rendered exactly as `show` of the new index renders them; without slides: no change |
| `Controller.Go` | src/slideapi.js:84-87 | with slides: lands on a slide congruent to `i` modulo the count (`i` itself when in range), and the slides are re-rendered exactly as `show` of that index renders them; without slides: no change |
| `Controller.GetCurrentSlide` | src/slideapi.js:116-118 | reports the current index, which on a valid slideshow with slides names a slide |
| `Controller.GetSlideMeta` | src/slideapi.js:124-132 | throws exactly when the index names no slide; otherwise reports the index, the slide, the caption (absent when unset or empty) and the state (`active` when unset or empty) |
| `Controller.AddSlide` | src/slideapi.js:139-147 | the count grows by one; the old slides, index, config and container are unchanged; the new last slide is hidden, is a frame with ordinal equal to the old count (and `inactive` with metadata on) unless the metadata overrides those, and carries every metadata entry; otherwise the node keeps its own classes (plus the frame class), its opacity and its data attributes, and gains no attribute beyond the ordinal, the state under metadata tracking and the metadata keys |
| `Controller.RemoveSlide` | src/slideapi.js:153-161 | an index with no slide changes nothing; otherwise the count drops by one, the others keep order and ordinals, the index is kept while in range and reset to 0 otherwise, and the remaining slides are re-rendered exactly as `show` of the new index renders them (markers, `active` state, recorded index and height) |
| `Controller.SetFx` | src/slideapi.js:167-169 | a registered name becomes the effect; an unregistered one changes nothing; nothing but `fx` ever changes |
| `Controller.Play` | src/slideapi.js:92-94 | a new timer joins the running ones and its handle is stored; nothing else changes |
| `Controller.Pause` | src/slideapi.js:99-101 | the timer with the stored handle stops, every other running timer keeps running, and the stored handle is kept |
| `Controller.Teardown` | src/slideapi.js:106-108 | the container ends up with no slides and the stored timer is stopped, and leaked timers keep running; slides, index, config and the container's height and recorded index are untouched |
| `Controller.Frames` | src/slideapi.js:29 | the slides are children that are not scripts, every non-script child is one, and there are no more of them than children |
| `Controller.ConfigOf` | src/slideapi.js:30-35 | defaults when attributes are absent: effect `fade`, timeout 3000, auto-height and metadata only for the exact text `"true"`; the id is the container's own or `slide-` plus the clock reading, and is never empty |
| `Controller.InitialSlide` | src/slideapi.js:38-62 | after the set-up loop and the first `show(0)`, slide `k` has its child's tag and height, ordinal `k`, with metadata on the state `active` for slide 0 and `inactive` otherwise, and keeps every data attribute of its child except ordinal and state, and the child's classes with the effect markers stripped and the frame class added (slide 0 also carries the configured marker: its class, or the opacity of an opacity effect such as `none`; every other slide keeps its opacity); with metadata off the child's dataset is kept whole apart from the ordinal, including a `slideState` from the markup |
| `Controller.Setup` | src/slideapi.js:29-62 | the configuration is read with its defaults; slide `k` has the tag and height of the `k`-th non-script child and is that child as initialisation leaves it (`InitialSlide`), a frame with ordinal `k`; only slide 0 is displayed; with metadata on only slide 0 is `active`; the first `show(0)` (src/slideapi.js:186) records index 0 only with metadata on and a slide present, and sets the container's height to slide 0's height only with auto-height on and a slide present; the container is not cleared; the state is valid and exactly the one new timer runs |
| `SlideshowLaws.ModSucc` | src/slideapi.js:68 | wrapping `a % n` forward by one gives `(a + 1) % n` |
| `SlideshowLaws.SuccIterIsMod` | src/slideapi.js:68 | `k` wrap-around steps from slide `a` land on `(a + k) mod n` |
| `SlideshowLaws.NextIterIsSuccIter` | src/slideapi.js:67-70 | `k` calls of `next` keep the slide count and take exactly `k` wrap-around steps of the index |
| `SlideshowLaws.NextIterIndex` | src/slideapi.js:67-70 | `k` calls of `next` move the index to `(start + k) mod n` and keep the count |
| `SlideshowLaws.NextCycles` | src/slideapi.js:67-70 | `n` calls of `next` on `n` slides return to the start index; every intermediate index is in range |
| `SlideshowLaws.PrevNextInverse` | src/slideapi.js:67-78 | `prev` after `next`, and `next` after `prev`, restore the index |
| `SlideshowLaws.PrevAfterGoZero` | src/slideapi.js:75-87 | `prev` after `go(0)` is the last slide |
| `SlideshowLaws.GoWraps` | src/slideapi.js:84-87 | `go(i + n)` and `go(i)` give the same index and the same slides |
| `SlideshowLaws.ShowVisibleCount` | src/slideapi.js:51-62 | after `show(i)` exactly one slide is displayed when `i` names a slide, none otherwise |
| `SlideshowLaws.ShowIdempotent` | src/slideapi.js:51-62 | showing the same slide twice equals showing it once |
| `SlideshowLaws.OperationsPreserveValid` | src/slideapi.js:51-169 | every operation keeps the index in range and every non-current slide hidden |
| `SlideshowLaws.NavigationShowsExactlyOne` | src/slideapi.js:67-87 | with slides, `next`, `prev` and `go` leave exactly one slide displayed |
| `SlideshowLaws.AddToEmptyShowsNothing` | src/slideapi.js:139-147 | adding a slide to an empty slideshow leaves one slide and none displayed |
| `SlideshowLaws.FramesAppend` | src/slideapi.js:29 | frame selection preserves document order: it distributes over concatenation |
| `SlideshowLaws.SetupKeepsChildren` | src/slideapi.js:29-45 | each initial slide keeps its child's data attributes other than ordinal and state, and its classes other than the effect markers, plus the frame class; a caption written in the markup of the first child is what `getSlideMeta()` reports right after initialisation |
| `SlideshowLaws.DefaultScenario` | src/slideapi.js:29-45 | a container without attributes starts on `fade`, 3000 ms, no auto-height or metadata, with slide 0 displayed and marked `fx-fade` and autoplay running; one tick displays slide 1 marked `fx-fade` and hides slide 0 without the marker |
| `SlideshowLaws.AddThenGoReportsCaption` | src/slideapi.js:139-147 | after `addSlide(node, {caption: "hi"})` on `n` slides and `go(n)`, `getSlideMeta` reports index `n` and caption `"hi"` |
| `SlideshowLaws.RemoveCurrentLastResets` | src/slideapi.js:153-161 | removing the current last slide resets the index to 0 and displays the old first slide, alone |
| `SlideshowLaws.RemoveThenAddRepeatsOrdinal` | src/slideapi.js:139-161 | after removing the first of `n` numbered slides, the next added slide repeats ordinal `n - 1` |
| `SlideshowLaws.SetFxSlideChangesMarker` | src/slideapi.js:167-169 | after `setFx('slide')` the next transition marks the shown slide `fx-slide` (not `fx-fade`) and no other slide carries a built-in marker; an unknown name keeps the effect |
| `SlideshowLaws.CustomMarkerIsNotStripped` | src/slideapi.js:54 | a marker class other than `fx-fade`/`fx-slide` survives on slides that are no longer shown |
| `SlideshowLaws.MetaStateDefaultsToActive` | src/slideapi.js:129 | a current slide with no recorded state is reported `active` |
| `SlideshowLaws.GetSlideMetaThrowsOnlyWhenEmpty` | src/slideapi.js:124-125 | on a valid slideshow `getSlideMeta` throws exactly when there are no slides |
| `SlideshowLaws.PlayThenPause` | src/slideapi.js:92-101 | `pause` right after `play` stops exactly the timer `play` started |
| `SlideshowLaws.PlayTwiceLeaksTimer` | src/slideapi.js:92-101 | after two `play` calls, `pause` stops only the second timer and the first keeps running |
| `Instances.GetSlideshow` | src/slideapi.js:212-215 | by id or by an element's id: the registered control object, or null exactly when none is registered |
| `Instances.InitSlideshow` | src/slideapi.js:34-35 | the new instance is the set-up one; the container now carries the instance's id, its own when it had one and `slide-` plus the clock reading otherwise; that id finds the control object, and every other id finds what it did before |
| `Instances.Destroy` | src/slideapi.js:106-110 | the id finds nothing afterwards and every other id keeps its entry; the instance is torn down exactly as `Controller.Teardown` says: the container holds no slides, only the stored timer is stopped, and the closure's slides and index are kept |
| `Instances.InitThenLookup` | src/slideapi.js:203-214 | after initialisation lookup by id and by the container (including one that had no id) finds the instance; an unregistered id finds null |
| `Instances.DestroyThenLookup` | src/slideapi.js:106-110 | after `destroy` the container is empty, no timer runs, lookup finds null, and a second `destroy` changes nothing |
| `Instances.SharedIdLastWins` | src/slideapi.js:203 | a second instance with the same id replaces the first in the registry, and destroying the first removes the second's entry |
| `Findings.NextIndexAsWritten` | src/slideapi.js:68 | the index `next` computes is NaN exactly when there are no slides or the index already is NaN |
| `Findings.PrevIndexAsWritten` | src/slideapi.js:76 | the index `prev` computes is NaN exactly when there are no slides or the index already is NaN |
| `Findings.GoIndexAsWritten` | src/slideapi.js:85 | the index `go` computes is NaN exactly when there are no slides, and is not positive for a negative target |
| `Findings.ZeroSlidesGiveNaN` | src/slideapi.js:68-85 | with no slides all three navigation operations store NaN, and from a NaN index `next` and `prev` stay NaN whatever the slide count |
| `Findings.NavigationOnEmptyIsNoop` | src/slideapi.js:67-87 | the corrected navigation leaves an empty slideshow unchanged, index 0 |
| `Findings.AsWrittenAgreesOnValidInput` | src/slideapi.js:67-87 | on a valid slideshow with slides, and for non-negative `go` targets, the code's arithmetic and the corrected navigation land on the same index |
| `Findings.ShowAsWritten` | src/slideapi.js:51-62 | same slides as `show`, but with auto-height the container takes the last slide's `offsetHeight` |
| `Findings.AutoheightAsWrittenCollapses` | src/slideapi.js:56 | with two or more slides, showing slide 0 as written gives height 0; the corrected `show` gives slide 0's height |
| `Findings.GoAsWritten` | src/slideapi.js:84-87 | the stored index is JavaScript's `i % n`, and only the slide it names (if any) is displayed |
| `Findings.NegativeGoHidesEverySlide` | src/slideapi.js:85 | `go(-1)` on three slides as written stores -1, displays no slide and breaks validity; the corrected `go` displays slide 2 alone |
| `Findings.SetFxAsWritten` | src/slideapi.js:167-169 | throws exactly for a registered name, and otherwise returns with nothing changed |
| `Findings.SetFxAsWrittenThrows` | src/slideapi.js:30 | `setFx('slide')` as written throws and no call can change the effect; the corrected `setFx` switches to `slide` |

## Left out

- The click wiring of declarative triggers (src/slideapi.js:172-176) scans the document. It is not modelled; a click is a call of `Prev`, `Next` or `Go`.
- Real timers (src/slideapi.js:92-101) are not modelled. A timer is a handle in `Timers`, and one tick is a call of `Next`. The timeout is stored but drives nothing.
- `parseInt` of the timeout and of a trigger's `go` target is not modelled. Both arrive as integers, because parsing text is outside the controller's logic.
- `Date.now()` is not called. The clock reading used to name a container with no id is the parameter `now`.
- The console summary (src/slideapi.js:179-184) is not modelled. It is cosmetic output.
- The selector facade in src/index.js is not modelled. It only glues this API onto DOM helpers whose source is not part of this model.
- Rendered layout is not modelled. Auto-height uses each element's `layoutHeight` and the rule that a hidden element has no height. A rendered element's real height is outside the model.
- The container's children are not tracked one by one. Script children and the effects of `appendChild`/`removeChild` on them are left out; the slides as the container's children are `Controller.Content`. The container's own inline height and `data-slide-index` are taken as unset when initialisation starts.
- Effects are markers (add a class, or set opacity), not arbitrary functions. The model has no way to register a non-function or a falsy value.
- JavaScript object-prototype names are not modelled. In the source, `effects['toString']` is truthy, so such names count as registered; the registry here holds only registered names.
- An element handed to `getSlideshow` is reduced to its `id`.
- Controller.Go: API targets are taken as integers, for `slideGo(i)` as for `removeSlide(i)` (Controller.RemoveSlide). In the source any JavaScript number is accepted. `go(1.5)` on three slides stores 1.5 (src/slideapi.js:85), and `show(1.5)` then matches no slide at :53, so every slide is hidden. `next` then stores 2.5 (:68), so slides stay hidden until an integer `go`, and `getSlideMeta` throws at :125. `removeSlide(1.5)` does nothing (:154-155).
- Controller.AddSlide: assumes `node` is not already a slide. In the source the node is passed by reference, so adding an existing slide hides and renumbers that same slide in place (src/slideapi.js:141-142), moves it to the end of the container (:145) and leaves two references to it in `slides` (:146); removing both later makes `removeChild` (:156) throw. The model appends a fresh record and never throws. Metadata keys are also assumed to be valid `dataset` names: the source's `node.dataset[k] = v` (:144) throws `SyntaxError` for a key such as `a-b` and `InvalidCharacterError` for one that makes an invalid attribute name, after :140-143 have already changed the node. Metadata values are taken as strings, where the source converts them with `String(v)`.
- Instances.InitSlideshow: the returned container carries the id assigned at src/slideapi.js:35; its children are returned as given, and their state after initialisation is the slideshow's slides (`Controller.Content`).
- Calls on a destroyed instance are not modelled beyond `Destroy` itself. The source leaves them undefined; the model keeps the closure's slide list and index.

## Findings

| source | as written | input that shows it | evidently intended | confidence | as-written member | corrected member |
|---|---|---|---|---|---|---|
| src/slideapi.js:68 | `index = (index + 1) % slides.length`, and likewise at :76 and :85, divides by a count that can be 0 | `next()` on a container with no non-script children stores NaN; after that `next` and `prev` compute NaN again, even once `addSlide` has added slides | navigation without slides does nothing | not executed; high | `Findings.ZeroSlidesGiveNaN` | `Controller.Next` |
| src/slideapi.js:85 | `index = i % slides.length` keeps the sign of `i` | `go(-1)` on three slides stores -1 and `show(-1)` hides every slide | a negative target counts back from the end, as `prev` does | not executed; medium | `Findings.NegativeGoHidesEverySlide` | `Controller.Go` |
| src/slideapi.js:168 | `fx = name` assigns to `fx`, which is declared `const` at :30 | `setFx('slide')` throws a TypeError, so the effect can never change | the effect switches to any registered name | not executed; high | `Findings.SetFxAsWrittenThrows` | `Controller.SetFx` |
| src/slideapi.js:56 | the container height is assigned inside the loop over every slide, from that slide's `offsetHeight` after its display was set | auto-height on, two slides, `show(0)`: the last slide is hidden, so its `offsetHeight` is 0 and the container collapses to height 0 | the container takes the shown slide's height | not executed; high | `Findings.AutoheightAsWrittenCollapses` | `Controller.Show` |

=== FILE: controller.dfy ===
/** One slideshow instance: its configuration, the current index, the ordered
    slides, the container's presentation state and the autoplay timers, with
    every operation of the controller as a pure transition on that state. */
module Controller {
  import opened JsValues
  import opened Dom
  import opened Effects

  /** Configuration read from the container at initialisation. Only `fx`
      changes afterwards (through `SetFx`). */
  datatype Config = Config(fx: string, timeout: int, autoheight: bool, meta: bool, id: string)

  /** The container's own state written by the controller: its inline height
      (auto-height), its `data-slide-index` (metadata tracking), and whether
      its content has been cleared. */
  datatype View = View(height: Option<nat>, recordedIndex: Option<int>, cleared: bool)

  /** Autoplay timers: the handle last stored by `play` and the timers that
      are still firing. */
  datatype Timers = Timers(interval: Option<nat>, live: set<nat>)

  datatype Slideshow = Slideshow(config: Config, index: int, slides: seq<Element>, view: View, timers: Timers)

  /** The container as initialisation finds it. An attribute that is absent
      or empty is `None`; the timeout arrives already parsed. An empty `id`
      means the container has none. */
  datatype Container = Container(
    id: string,
    fxAttr: Option<string>,
    timeoutAttr: Option<int>,
    autoheightAttr: Option<string>,
    metaAttr: Option<string>,
    children: seq<Element>)

  /** What `getSlideMeta` reports about the current slide. */
  datatype SlideMeta = SlideMeta(index: int, caption: Option<string>, state: string, element: Element)

  const DefaultFx := "fade"
  const DefaultTimeout := 3000
  const IdPrefix := "slide-"

  /** The state every operation keeps: the index points at a slide (or is 0
      when there are none), and every slide but the current one is hidden. */
  predicate Valid(st: Slideshow)
  {
    && (if |st.slides| == 0 then st.index == 0 else 0 <= st.index < |st.slides|)
    && forall j :: 0 <= j < |st.slides| && j != st.index ==> st.slides[j].display == Hidden
  }

  /** A `data-*` value as `x || default` sees it: the empty string is falsy. */
  function Data(e: Element, key: string): (r: Option<string>)
    ensures r.Some? <==> key in e.dataset && e.dataset[key] != ""
    ensures r.Some? ==> r.value == e.dataset[key]
  {
    if key in e.dataset && e.dataset[key] != "" then Some(e.dataset[key]) else None
  }

  // ---------------------------------------------------------------- show

  /** One step of `show`'s loop: display, strip the built-in markers, mark
      the shown slide with the configured effect (when it is registered),
      and record the slide state when metadata tracking is on. */
  function ShowSlide(effects: EffectRegistry, cfg: Config, e: Element, shown: bool): Element
  {
    var base := e.(display := if shown then Block else Hidden, classes := e.classes - FxClasses);
    var marked := if shown && cfg.fx in effects then Apply(effects[cfg.fx], base) else base;
    if cfg.meta then marked.(dataset := marked.dataset[StateKey := if shown then ActiveState else InactiveState])
    else marked
  }

  function ShowSlides(effects: EffectRegistry, cfg: Config, slides: seq<Element>, i: int): (r: seq<Element>)
    ensures |r| == |slides|
    ensures forall j :: 0 <= j < |r| ==> r[j] == ShowSlide(effects, cfg, slides[j], j == i)
  {
    seq(|slides|, j requires 0 <= j < |slides| => ShowSlide(effects, cfg, slides[j], j == i))
  }

  /** The rendered height of the slide at `i`, zero when there is none. */
  function ShownHeight(slides: seq<Element>, i: int): nat
  {
    if 0 <= i < |slides| then OffsetHeight(slides[i]) else 0
  }

  /** `show(i)`: slide `i` alone is displayed, the built-in markers are
      stripped from every other slide and only slide `i` gets the configured
      effect's marker; with auto-height the container takes slide `i`'s
      height; with metadata tracking exactly slide `i` is `active` and the
      container records `i`. With no slides nothing changes. */
  function Show(effects: EffectRegistry, st: Slideshow, i: int): (r: Slideshow)
    ensures r.config == st.config && r.index == st.index && r.timers == st.timers && r.view.cleared == st.view.cleared
    ensures |r.slides| == |st.slides|
    ensures OnlyVisibleAt(r.slides, i)
    ensures forall j :: 0 <= j < |r.slides| ==> SameElement(r.slides[j], st.slides[j])
    ensures forall j :: 0 <= j < |r.slides| && j != i ==>
      r.slides[j].classes == st.slides[j].classes - FxClasses && r.slides[j].opacity == st.slides[j].opacity
    ensures 0 <= i < |r.slides| ==>
      r.slides[i].classes == st.slides[i].classes - FxClasses + MarkerClass(effects, st.config.fx)
    ensures 0 <= i < |r.slides| && st.config.fx !in effects ==> r.slides[i].opacity == st.slides[i].opacity
    ensures 0 <= i < |r.slides| && st.config.fx in effects ==>
      r.slides[i].opacity == (match effects[st.config.fx] case SetOpacity(v) => Some(v) case AddClass(_) => st.slides[i].opacity)
    ensures st.config.meta ==> forall j :: 0 <= j < |r.slides| ==>
      r.slides[j].dataset == st.slides[j].dataset[StateKey := if j == i then ActiveState else InactiveState]
    ensures !st.config.meta ==> forall j :: 0 <= j < |r.slides| ==> r.slides[j].dataset == st.slides[j].dataset
    ensures |st.slides| > 0 && st.config.meta ==> r.view.recordedIndex == Some(i)
    ensures !st.config.meta ==> r.view.recordedIndex == st.view.recordedIndex
    ensures |st.slides| > 0 && st.config.autoheight && 0 <= i < |st.slides| ==> r.view.height == Some(st.slides[i].layoutHeight)
    ensures !st.config.autoheight ==> r.view.height == st.view.height
    ensures |st.slides| == 0 ==> r == st
  {
    var slides := ShowSlides(effects, st.config, st.slides, i);
    var view :=
      if |slides| == 0 then st.view
      else st.view.(
        height := if st.config.autoheight then Some(ShownHeight(slides, i)) else st.view.height,
        recordedIndex := if st.config.meta then Some(i) else st.view.recordedIndex);
    st.(slides := slides, view := view)
  }

  // ---------------------------------------------------------- navigation

  /** The index after `next()` among `n` slides. */
  function Succ(index: int, n: nat): (r: int)
    requires n > 0
    ensures 0 <= r < n
    ensures 0 <= index < n - 1 ==> r == index + 1
    ensures index == n - 1 ==> r == 0
  {
    (index + 1) % n
  }

  /** The index after `prev()` among `n` slides. */
  function Pred(index: int, n: nat): (r: int)
    requires n > 0
    ensures 0 <= r < n
    ensures 0 < index < n ==> r == index - 1
    ensures index == 0 ==> r == n - 1
  {
    (index - 1 + n) % n
  }

  /** The slide `go(i)` lands on among `n` slides: `i` modulo `n`. */
  function Wrap(i: int, n: nat): (r: int)
    requires n > 0
    ensures 0 <= r < n
    ensures 0 <= i < n ==> r == i
    ensures (i - r) % n == 0
  {
    var k := i % n;
    ModUnique(i - k, n, i / n, 0);
    k
  }

  /** `next()`: advance by one, wrapping from the last slide to the first, and
      show the new slide. With no slides it does nothing. */
  function Next(effects: EffectRegistry, st: Slideshow): (r: Slideshow)
    ensures |st.slides| == 0 ==> r == st
    ensures r.config == st.config && r.timers == st.timers && |r.slides| == |st.slides|
    ensures |st.slides| > 0 ==> 0 <= r.index < |st.slides| && OnlyVisibleAt(r.slides, r.index)
    ensures 0 <= st.index < |st.slides| - 1 ==> r.index == st.index + 1
    ensures |st.slides| > 0 && st.index == |st.slides| - 1 ==> r.index == 0
    ensures |st.slides| > 0 ==> r == Show(effects, st.(index := r.index), r.index)
  {
    if |st.slides| == 0 then st
    else
      var i := Succ(st.index, |st.slides|);
      Show(effects, st.(index := i), i)
  }

  /** `prev()`: step back by one, wrapping from the first slide to the last,
      and show the new slide. With no slides it does nothing. */
  function Prev(effects: EffectRegistry, st: Slideshow): (r: Slideshow)
    ensures |st.slides| == 0 ==> r == st
    ensures r.config == st.config && r.timers == st.timers && |r.slides| == |st.slides|
    ensures |st.slides| > 0 ==> 0 <= r.index < |st.slides| && OnlyVisibleAt(r.slides, r.index)
    ensures 0 < st.index < |st.slides| ==> r.index == st.index - 1
    ensures |st.slides| > 0 && st.index == 0 ==> r.index == |st.slides| - 1
    ensures |st.slides| > 0 ==> r == Show(effects, st.(index := r.index), r.index)
  {
    if |st.slides| == 0 then st
    else
      var i := Pred(st.index, |st.slides|);
      Show(effects, st.(index := i), i)
  }

  /** `go(i)`: jump to slide `i` modulo the slide count (a negative `i`
      counts back from the end) and show it. With no slides it does
      nothing. */
  function Go(effects: EffectRegistry, st: Slideshow, i: int): (r: Slideshow)
    ensures |st.slides| == 0 ==> r == st
    ensures r.config == st.config && r.timers == st.timers && |r.slides| == |st.slides|
    ensures |st.slides| > 0 ==> 0 <= r.index < |st.slides| && OnlyVisibleAt(r.slides, r.index)
    ensures 0 <= i < |st.slides| ==> r.index == i
    ensures |st.slides| > 0 ==> (i - r.index) % |st.slides| == 0
    ensures |st.slides| > 0 ==> r == Show(effects, st.(index := r.index), r.index)
  {
    if |st.slides| == 0 then st
    else
      var k := Wrap(i, |st.slides|);
      Show(effects, st.(index := k), k)
  }

  /** `getCurrentSlide()`. */
  function GetCurrentSlide(st: Slideshow): (r: int)
    ensures Valid(st) && |st.slides| > 0 ==> 0 <= r < |st.slides|
    ensures r == st.index
  {
    st.index
  }

  /** `getSlideMeta()`: the current index, the caption (none when unset or
      empty), the slide state (`active` when unset or empty) and the slide
      itself. Reading a slide that is not there throws. */
  function GetSlideMeta(st: Slideshow): (r: Outcome<SlideMeta>)
    ensures r.Threw? <==> !(0 <= st.index < |st.slides|)
    ensures r.Returned? ==> r.value.index == st.index && r.value.element == st.slides[st.index]
    ensures r.Returned? ==> r.value.caption == Data(st.slides[st.index], CaptionKey)
    ensures r.Returned? ==> r.value.state == Data(st.slides[st.index], StateKey).GetOr(ActiveState)
  {
    if 0 <= st.index < |st.slides| then
      var s := st.slides[st.index];
      Returned(SlideMeta(st.index, Data(s, CaptionKey), Data(s, StateKey).GetOr(ActiveState), s))
    else
      Threw(TypeError("Cannot read properties of undefined (reading 'dataset')"))
  }

  // ------------------------------------------------------------ mutation

  /** `addSlide(node, metaData)`: append `node` as a hidden frame whose
      ordinal is the old slide count (`inactive` under metadata tracking),
      then copy the metadata entries onto its dataset, overriding any key
      they share. The index, the container and the other slides are not
      touched and nothing is re-rendered. */
  function AddSlide(st: Slideshow, node: Element, metadata: map<string, string>): (r: Slideshow)
    ensures |r.slides| == |st.slides| + 1
    ensures r.slides[..|st.slides|] == st.slides
    ensures r.index == st.index && r.config == st.config && r.view == st.view && r.timers == st.timers
    ensures r.slides[|st.slides|].display == Hidden
    ensures FrameClass in r.slides[|st.slides|].classes
    ensures r.slides[|st.slides|].classes == node.classes + {FrameClass} && r.slides[|st.slides|].opacity == node.opacity
    ensures r.slides[|st.slides|].dataset.Keys ==
      node.dataset.Keys + metadata.Keys + {IndexKey} + (if st.config.meta then {StateKey} else {})
    ensures !st.config.meta && StateKey in node.dataset && StateKey !in metadata ==>
      r.slides[|st.slides|].dataset[StateKey] == node.dataset[StateKey]
    ensures r.slides[|st.slides|].tag == node.tag && r.slides[|st.slides|].layoutHeight == node.layoutHeight
    ensures IndexKey !in metadata ==>
      IndexKey in r.slides[|st.slides|].dataset && r.slides[|st.slides|].dataset[IndexKey] == Decimal(|st.slides|)
    ensures st.config.meta && StateKey !in metadata ==>
      StateKey in r.slides[|st.slides|].dataset && r.slides[|st.slides|].dataset[StateKey] == InactiveState
    ensures forall k :: k in metadata ==> k in r.slides[|st.slides|].dataset && r.slides[|st.slides|].dataset[k] == metadata[k]
    ensures forall k :: k in node.dataset && k !in metadata && k != IndexKey && k != StateKey ==>
      k in r.slides[|st.slides|].dataset && r.slides[|st.slides|].dataset[k] == node.dataset[k]
  {
    var n := |st.slides|;
    var ds := node.dataset[IndexKey := Decimal(n)];
    var ds' := if st.config.meta then ds[StateKey := InactiveState] else ds;
    var added := node.(classes := node.classes + {FrameClass}, display := Hidden, dataset := ds' + metadata);
    st.(slides := st.slides + [added])
  }

  /** `removeSlide(i)`: an index with no slide is a no-op. Otherwise the
      slide leaves the sequence, the others keep their order and their
      ordinals, the index is kept while it still points at a slide and
      reset to 0 otherwise, and the current slide is shown again. */
  function RemoveSlide(effects: EffectRegistry, st: Slideshow, i: int): (r: Slideshow)
    ensures !(0 <= i < |st.slides|) ==> r == st
    ensures 0 <= i < |st.slides| ==> |r.slides| == |st.slides| - 1
    ensures 0 <= i < |st.slides| ==> forall j :: 0 <= j < |r.slides| ==>
      SameElement(r.slides[j], st.slides[if j < i then j else j + 1])
    ensures 0 <= i < |st.slides| ==> r.index == (if st.index >= |st.slides| - 1 then 0 else st.index)
    ensures 0 <= i < |st.slides| && |r.slides| > 0 ==> OnlyVisibleAt(r.slides, r.index)
    ensures 0 <= i < |st.slides| ==>
      r == Show(effects, st.(slides := st.slides[..i] + st.slides[i + 1..], index := r.index), r.index)
    ensures r.config == st.config && r.timers == st.timers
  {
    if 0 <= i < |st.slides| then
      var rest := st.slides[..i] + st.slides[i + 1..];
      var index := if st.index >= |rest| then 0 else st.index;
      Show(effects, st.(slides := rest, index := index), index)
    else st
  }

  /** `setFx(name)`: switch to `name` when it is a registered effect,
      otherwise change nothing. */
  function SetFx(effects: EffectRegistry, st: Slideshow, name: string): (r: Slideshow)
    ensures name in effects ==> r.config.fx == name
    ensures name !in effects ==> r == st
    ensures r == st.(config := st.config.(fx := r.config.fx))
  {
    if name in effects then st.(config := st.config.(fx := name)) else st
  }

  // ------------------------------------------------------------- autoplay

  /** `play()`: start a new repeating timer and remember its handle; a timer
      started earlier keeps running. */
  function Play(st: Slideshow, handle: nat): (r: Slideshow)
    ensures r.timers.interval == Some(handle)
    ensures r.timers.live == st.timers.live + {handle}
    ensures r == st.(timers := r.timers)
  {
    st.(timers := Timers(Some(handle), st.timers.live + {handle}))
  }

  /** `pause()`: stop the timer whose handle was stored last; the stored
      handle itself is kept. */
  function Pause(st: Slideshow): (r: Slideshow)
    ensures r == st.(timers := r.timers) && r.timers.interval == st.timers.interval
    ensures st.timers.interval.Some? ==> st.timers.interval.value !in r.timers.live
    ensures r.timers.live <= st.timers.live
    ensures forall h :: h in st.timers.live && Some(h) != st.timers.interval ==> h in r.timers.live
  {
    match st.timers.interval
    case Some(h) => st.(timers := st.timers.(live := st.timers.live - {h}))
    case None => st
  }

  /** The slides as children of the container: none once its content has
      been cleared. */
  function Content(st: Slideshow): seq<Element>
  {
    if st.view.cleared then [] else st.slides
  }

  /** The instance's side of `destroy()`: pause autoplay and clear the
      container. The closure's own slide list is left as it was. */
  function Teardown(st: Slideshow): (r: Slideshow)
    ensures Content(r) == []
    ensures r.timers == Pause(st).timers
    ensures r.slides == st.slides && r.index == st.index && r.config == st.config
    ensures r.view == st.view.(cleared := true)
  {
    var paused := Pause(st);
    paused.(view := paused.view.(cleared := true))
  }

  // ------------------------------------------------------- initialisation

  /** The container's children that become slides: every one that is not a
      script, in document order. */
  function Frames(children: seq<Element>): (r: seq<Element>)
    ensures |r| <= |children|
    ensures forall k :: 0 <= k < |r| ==> r[k].tag != ScriptTag && r[k] in children
    ensures forall e :: e in children && e.tag != ScriptTag ==> e in r
  {
    if |children| == 0 then []
    else
      var rest := Frames(children[1..]);
      if children[0].tag == ScriptTag then rest else [children[0]] + rest
  }

  /** Set-up of the `k`-th frame: mark it as a slide, display only the first,
      number it, and record its state under metadata tracking. */
  function Prepare(e: Element, k: nat, meta: bool): Element
  {
    var ds := e.dataset[IndexKey := Decimal(k)];
    e.(classes := e.classes + {FrameClass},
       display := if k == 0 then Block else Hidden,
       dataset := if meta then ds[StateKey := if k == 0 then ActiveState else InactiveState] else ds)
  }

  /** The configuration initialisation reads from the container, with its
      defaults: effect `fade`, timeout 3000 ms, auto-height and metadata
      tracking off unless the attribute is exactly `"true"`, and an id made
      from the clock reading `now` when the container has none. */
  function ConfigOf(el: Container, now: nat): (cfg: Config)
    ensures el.fxAttr.None? ==> cfg.fx == DefaultFx
    ensures el.fxAttr.Some? ==> cfg.fx == (if el.fxAttr.value == "" then DefaultFx else el.fxAttr.value)
    ensures el.timeoutAttr.None? ==> cfg.timeout == DefaultTimeout
    ensures el.timeoutAttr.Some? ==> cfg.timeout == el.timeoutAttr.value
    ensures cfg.autoheight <==> el.autoheightAttr == Some("true")
    ensures cfg.meta <==> el.metaAttr == Some("true")
    ensures el.id != "" ==> cfg.id == el.id
    ensures el.id == "" ==> cfg.id == IdPrefix + Decimal(now)
    ensures cfg.id != ""
  {
    Config(
      fx := if el.fxAttr.Some? && el.fxAttr.value != "" then el.fxAttr.value else DefaultFx,
      timeout := el.timeoutAttr.GetOr(DefaultTimeout),
      autoheight := el.autoheightAttr == Some("true"),
      meta := el.metaAttr == Some("true"),
      id := if el.id != "" then el.id else IdPrefix + Decimal(now))
  }

  /** The frames as the set-up loop leaves them, before the first `show`. */
  function PrepareAll(frames: seq<Element>, meta: bool): (r: seq<Element>)
    ensures |r| == |frames|
    ensures forall k :: 0 <= k < |r| ==> r[k] == Prepare(frames[k], k, meta)
    ensures forall k :: 0 <= k < |r| ==>
      r[k].dataset - {IndexKey, StateKey} == frames[k].dataset - {IndexKey, StateKey}
    ensures forall k :: 0 <= k < |r| ==> r[k].classes == frames[k].classes + {FrameClass}
  {
    seq(|frames|, k requires 0 <= k < |frames| => Prepare(frames[k], k, meta))
  }

  /** The `k`-th frame after the set-up loop and the first `show(0)`: it
      keeps the tag, height, data attributes and classes of its child, apart
      from the ordinal, the state, the frame class and the effect markers. */
  function InitialSlide(effects: EffectRegistry, cfg: Config, e: Element, k: nat): (r: Element)
    ensures r.tag == e.tag && r.layoutHeight == e.layoutHeight
    ensures IndexKey in r.dataset && r.dataset[IndexKey] == Decimal(k)
    ensures cfg.meta ==> StateKey in r.dataset && r.dataset[StateKey] == (if k == 0 then ActiveState else InactiveState)
    ensures r.dataset - {IndexKey, StateKey} == e.dataset - {IndexKey, StateKey}
    ensures k > 0 ==> r.classes == e.classes - FxClasses + {FrameClass}
    ensures k == 0 ==> r.classes == e.classes - FxClasses + {FrameClass} + MarkerClass(effects, cfg.fx)
    ensures k == 0 && cfg.fx in effects && effects[cfg.fx].SetOpacity? ==> r.opacity == Some(effects[cfg.fx].value)
    ensures !(k == 0 && cfg.fx in effects && effects[cfg.fx].SetOpacity?) ==> r.opacity == e.opacity
    ensures !cfg.meta ==> r.dataset == e.dataset[IndexKey := Decimal(k)]
  {
    var p := Prepare(e, k, cfg.meta);
    assert p.dataset - {IndexKey, StateKey} == e.dataset - {IndexKey, StateKey};
    ShowSlide(effects, cfg, p, k == 0)
  }

  /** The frames after the set-up loop and the first `show(0)`. */
  function InitialSlides(effects: EffectRegistry, cfg: Config, frames: seq<Element>): (r: seq<Element>)
    ensures |r| == |frames|
    ensures forall k :: 0 <= k < |r| ==> r[k] == InitialSlide(effects, cfg, frames[k], k)
  {
    var r := ShowSlides(effects, cfg, PrepareAll(frames, cfg.meta), 0);
    assert forall k :: 0 <= k < |r| ==> r[k] == InitialSlide(effects, cfg, frames[k], k);
    r
  }

  /** The instance `initSlideshow` builds before registering it: slide `k`
      is the `k`-th non-script child, numbered `k`; slide 0 alone is shown
      (and alone `active` under metadata tracking); autoplay runs on timer
      `handle`. */
  function Setup(effects: EffectRegistry, el: Container, now: nat, handle: nat): (r: Slideshow)
    ensures r.config == ConfigOf(el, now)
    ensures |r.slides| == |Frames(el.children)|
    ensures forall k :: 0 <= k < |r.slides| ==>
      r.slides[k].tag == Frames(el.children)[k].tag && r.slides[k].layoutHeight == Frames(el.children)[k].layoutHeight
    ensures forall k :: 0 <= k < |r.slides| ==>
      IndexKey in r.slides[k].dataset && r.slides[k].dataset[IndexKey] == Decimal(k)
    ensures r.slides == InitialSlides(effects, r.config, Frames(el.children))
    ensures r.index == 0 && OnlyVisibleAt(r.slides, 0)
    ensures r.config.meta ==> forall k :: 0 <= k < |r.slides| ==>
      StateKey in r.slides[k].dataset && r.slides[k].dataset[StateKey] == (if k == 0 then ActiveState else InactiveState)
    ensures Valid(r)
    ensures r.timers == Timers(Some(handle), {handle})
    ensures Content(r) == r.slides
    ensures !r.view.cleared
    ensures r.view.recordedIndex == (if r.config.meta && |r.slides| > 0 then Some(0) else None)
    ensures r.view.height == (if r.config.autoheight && |r.slides| > 0 then Some(r.slides[0].layoutHeight) else None)
  {
    var cfg := ConfigOf(el, now);
    var frames := Frames(el.children);
    var st := Slideshow(cfg, 0, PrepareAll(frames, cfg.meta), View(None, None, false), Timers(None, {}));
    var shown := Show(effects, st, 0);
    assert shown.slides == InitialSlides(effects, cfg, frames);
    Play(shown, handle)
  }
}

=== FILE: dom.dfy ===
/** The part of a page element the slideshow controller reads and writes:
    its tag, inline `display` and `opacity`, class list, `data-*` attributes
    (its `dataset`) and the height layout gives it when it is displayed. */
module Dom {
  import opened JsValues

  /** The inline `style.display` of an element: never written by the
      controller (`Unstyled`), `block`, or `none` (`Hidden`). */
  datatype Display = Unstyled | Block | Hidden

  /** One element. `layoutHeight` stands for the rendered height the page's
      layout gives the element when it is displayed; the controller cannot
      change it. */
  datatype Element = Element(
    tag: string,
    display: Display,
    classes: set<string>,
    opacity: Option<int>,
    dataset: map<string, string>,
    layoutHeight: nat)

  /** `offsetHeight`: an element with `display: none` has no box, so it
      reports zero. */
  function OffsetHeight(e: Element): (h: nat)
    ensures e.display == Hidden ==> h == 0
    ensures e.display != Hidden ==> h == e.layoutHeight
  {
    if e.display == Hidden then 0 else e.layoutHeight
  }

  const ScriptTag := "SCRIPT"
  /** Class every slide carries. */
  const FrameClass := "slide-frame"
  /** `data-slide-index`: a slide's ordinal, and on the container the index last shown. */
  const IndexKey := "slideIndex"
  /** `data-slide-state`: `active` or `inactive` when metadata tracking is on. */
  const StateKey := "slideState"
  /** `data-caption`: an optional caption. */
  const CaptionKey := "caption"
  const ActiveState := "active"
  const InactiveState := "inactive"

  /** The number of elements displayed as `block`. */
  function VisibleCount(s: seq<Element>): nat
  {
    if |s| == 0 then 0
    else VisibleCount(s[..|s| - 1]) + (if s[|s| - 1].display == Block then 1 else 0)
  }

  /** Exactly the element at position `i` is displayed and every other one
      has `display: none`. */
  predicate OnlyVisibleAt(s: seq<Element>, i: int)
  {
    forall j :: 0 <= j < |s| ==> (s[j].display == Block <==> j == i) && (s[j].display == Hidden <==> j != i)
  }

  /** When only position `i` can be displayed, the visible count is one if
      `i` is a position of `s` and zero otherwise. */
  lemma {:induction false} VisibleCountOfOnlyVisibleAt(s: seq<Element>, i: int)
    requires OnlyVisibleAt(s, i)
    ensures VisibleCount(s) == (if 0 <= i < |s| then 1 else 0)
  {
    if |s| > 0 {
      var init := s[..|s| - 1];
      assert OnlyVisibleAt(init, i) by {
        forall j | 0 <= j < |init| ensures (init[j].display == Block <==> j == i) && (init[j].display == Hidden <==> j != i) {
          assert init[j] == s[j];
        }
      }
      VisibleCountOfOnlyVisibleAt(init, i);
    }
  }

  /** Two records describe the same element: they differ at most in the
      presentation state that `show` rewrites (display, classes, opacity,
      `data-slide-state`). */
  predicate SameElement(a: Element, b: Element)
  {
    && a.tag == b.tag
    && a.layoutHeight == b.layoutHeight
    && a.dataset - {StateKey} == b.dataset - {StateKey}
  }
}

=== FILE: effects.dfy ===
/** The effect registry: a table from effect name to the visual marker the
    effect puts on the slide being shown. It is shared by every slideshow and
    can be extended at any time. */
module Effects {
  import opened JsValues
  import opened Dom

  /** What an effect does to a slide, as an abstract marker: add a class, or
      set the inline opacity. */
  datatype Effect = AddClass(name: string) | SetOpacity(value: int)

  type EffectRegistry = map<string, Effect>

  const FadeClass := "fx-fade"
  const SlideClass := "fx-slide"

  /** The marker classes `show` strips from every slide before marking one. */
  const FxClasses: set<string> := {FadeClass, SlideClass}

  /** The pre-registered effects `fade`, `slide` and `none`. */
  const Builtin: EffectRegistry :=
    map["fade" := AddClass(FadeClass), "slide" := AddClass(SlideClass), "none" := SetOpacity(1)]

  /** `effects[name]`: the registered effect, or nothing. */
  function Lookup(reg: EffectRegistry, name: string): (r: Option<Effect>)
    ensures r.Some? <==> name in reg
    ensures r.Some? ==> r.value == reg[name]
  {
    if name in reg then Some(reg[name]) else None
  }

  /** `registerEffect(name, fn)`: inserts the effect or overwrites an earlier
      one of the same name; every other name keeps what it had. */
  function RegisterEffect(reg: EffectRegistry, name: string, fx: Effect): (r: EffectRegistry)
    ensures Lookup(r, name) == Some(fx)
    ensures forall other :: other != name ==> Lookup(r, other) == Lookup(reg, other)
    ensures r.Keys == reg.Keys + {name}
  {
    reg[name := fx]
  }

  /** Applies an effect's marker to a slide; nothing else about it changes. */
  function Apply(fx: Effect, e: Element): (r: Element)
    ensures r.tag == e.tag && r.display == e.display && r.dataset == e.dataset && r.layoutHeight == e.layoutHeight
    ensures fx.AddClass? ==> fx.name in r.classes && r.classes - {fx.name} == e.classes - {fx.name} && r.opacity == e.opacity
    ensures fx.SetOpacity? ==> r.classes == e.classes && r.opacity == Some(fx.value)
  {
    match fx
    case AddClass(c) => e.(classes := e.classes + {c})
    case SetOpacity(v) => e.(opacity := Some(v))
  }

  /** The class the effect registered under `name` adds, if any. */
  function MarkerClass(reg: EffectRegistry, name: string): set<string>
  {
    if name in reg && reg[name].AddClass? then {reg[name].name} else {}
  }

  /** The built-in markers: `fade` adds `fx-fade`, `slide` adds `fx-slide`,
      `none` sets opacity 1, and nothing else is registered at start-up. */
  lemma BuiltinMarkers()
    ensures Lookup(Builtin, "fade") == Some(AddClass(FadeClass))
    ensures Lookup(Builtin, "slide") == Some(AddClass(SlideClass))
    ensures Lookup(Builtin, "none") == Some(SetOpacity(1))
    ensures Builtin.Keys == {"fade", "slide", "none"}
  {
  }
}

=== FILE: findings.dfy ===
/** Places where the controller's code, as written, departs from what it
    evidently intends. Each is modelled here as written, with a lemma that
    exhibits the departure on a concrete input; the corrected behaviour is
    the one `Controller` defines and the rest of the model uses. */
module Findings {
  import opened JsValues
  import opened Dom
  import opened Effects
  import opened Controller

  // ------------------------------------ index arithmetic with JavaScript `%`

  /** `index = (index + 1) % slides.length` as written; arithmetic on NaN
      gives NaN. */
  function NextIndexAsWritten(index: JsNumber, n: nat): (r: JsNumber)
    ensures r.NaN? <==> n == 0 || index.NaN?
  {
    match index
    case NaN => NaN
    case Num(v) => JsRem(v + 1, n)
  }

  /** `index = (index - 1 + slides.length) % slides.length` as written. */
  function PrevIndexAsWritten(index: JsNumber, n: nat): (r: JsNumber)
    ensures r.NaN? <==> n == 0 || index.NaN?
  {
    match index
    case NaN => NaN
    case Num(v) => JsRem(v - 1 + n, n)
  }

  /** `index = i % slides.length` as written. */
  function GoIndexAsWritten(i: int, n: nat): (r: JsNumber)
    ensures n == 0 <==> r.NaN?
    ensures n > 0 && i < 0 ==> r.value <= 0
  {
    JsRem(i, n)
  }

  /** With no slides, `next()`, `prev()` and `go(i)` store NaN as the
      index, and `next()` and `prev()` compute NaN again from a NaN index
      whatever the slide count, even once slides have been added. */
  lemma ZeroSlidesGiveNaN(index: int, i: int, n: nat)
    ensures NextIndexAsWritten(Num(index), 0) == NaN
    ensures PrevIndexAsWritten(Num(index), 0) == NaN
    ensures GoIndexAsWritten(i, 0) == NaN
    ensures NextIndexAsWritten(NaN, n) == NaN && PrevIndexAsWritten(NaN, n) == NaN
  {
  }

  /** The corrected navigation leaves a slideshow without slides exactly as
      it was, so its index stays 0. */
  lemma NavigationOnEmptyIsNoop(effects: EffectRegistry, st: Slideshow, i: int)
    requires Valid(st) && |st.slides| == 0
    ensures Next(effects, st) == st && Prev(effects, st) == st && Go(effects, st, i) == st
    ensures Next(effects, st).index == 0
  {
  }

  /** Wherever the as-written arithmetic is defined and the target is not
      negative, it agrees with the corrected navigation. */
  lemma AsWrittenAgreesOnValidInput(effects: EffectRegistry, st: Slideshow, i: int)
    requires Valid(st) && |st.slides| > 0
    ensures NextIndexAsWritten(Num(st.index), |st.slides|) == Num(Next(effects, st).index)
    ensures PrevIndexAsWritten(Num(st.index), |st.slides|) == Num(Prev(effects, st).index)
    ensures i >= 0 ==> GoIndexAsWritten(i, |st.slides|) == Num(Go(effects, st, i).index)
  {
  }

  // ------------------------------------------------------ auto-height

  /** `show(i)` as written: the container's height is assigned inside the
      loop over all slides, so the value that survives is the `offsetHeight`
      of the last slide, read after that slide was itself hidden or shown. */
  function ShowAsWritten(effects: EffectRegistry, st: Slideshow, i: int): (r: Slideshow)
    ensures r.slides == Show(effects, st, i).slides && r.index == st.index && r.config == st.config
    ensures |st.slides| > 0 && st.config.autoheight ==>
      r.view.height == Some(OffsetHeight(r.slides[|r.slides| - 1]))
  {
    var shown := Show(effects, st, i);
    if |shown.slides| > 0 && st.config.autoheight then
      shown.(view := shown.view.(height := Some(OffsetHeight(shown.slides[|shown.slides| - 1]))))
    else shown
  }

  /** With two or more slides and auto-height on, showing slide 0 as written
      sets the container's height to 0, the height of the hidden last slide;
      the corrected `show` sets slide 0's own height. */
  lemma AutoheightAsWrittenCollapses(effects: EffectRegistry, st: Slideshow)
    requires |st.slides| >= 2 && st.config.autoheight && st.slides[0].layoutHeight > 0
    ensures ShowAsWritten(effects, st, 0).view.height == Some(0)
    ensures Show(effects, st, 0).view.height == Some(st.slides[0].layoutHeight)
  {
  }

  // ------------------------------------------------------- negative go

  /** `go(i)` as written, for a slideshow with slides. */
  function GoAsWritten(effects: EffectRegistry, st: Slideshow, i: int): (r: Slideshow)
    requires |st.slides| > 0
    ensures Num(r.index) == GoIndexAsWritten(i, |st.slides|)
    ensures OnlyVisibleAt(r.slides, r.index)
  {
    var k := GoIndexAsWritten(i, |st.slides|).value;
    ShowAsWritten(effects, st.(index := k), k)
  }

  /** `go(-1)` as written stores index -1, which names no slide, so every
      slide is hidden and the state is no longer valid; the corrected `go`
      lands on the last slide and displays it. */
  lemma NegativeGoHidesEverySlide(effects: EffectRegistry, st: Slideshow)
    requires Valid(st) && |st.slides| == 3
    ensures GoAsWritten(effects, st, -1).index == -1
    ensures VisibleCount(GoAsWritten(effects, st, -1).slides) == 0
    ensures !Valid(GoAsWritten(effects, st, -1))
    ensures Go(effects, st, -1).index == 2 && VisibleCount(Go(effects, st, -1).slides) == 1
  {
    VisibleCountOfOnlyVisibleAt(GoAsWritten(effects, st, -1).slides, -1);
    VisibleCountOfOnlyVisibleAt(Go(effects, st, -1).slides, Go(effects, st, -1).index);
  }

  // ------------------------------------------------------------ setFx

  /** `setFx(name)` as written: `fx` is a constant binding, so assigning a
      registered name to it throws; an unregistered name returns without
      effect. */
  function SetFxAsWritten(effects: EffectRegistry, st: Slideshow, name: string): (r: Outcome<Slideshow>)
    ensures r.Threw? <==> name in effects
    ensures r.Returned? ==> r.value == st
  {
    if name in effects then Threw(TypeError("Assignment to constant variable.")) else Returned(st)
  }

  /** `setFx('slide')` as written throws and can never change the effect;
      the corrected `setFx` switches to `slide`. */
  lemma SetFxAsWrittenThrows(st: Slideshow)
    ensures SetFxAsWritten(Builtin, st, "slide").Threw?
    ensures forall name :: SetFxAsWritten(Builtin, st, name).Returned? ==> SetFxAsWritten(Builtin, st, name).value.config.fx == st.config.fx
    ensures SetFx(Builtin, st, "slide").config.fx == "slide"
  {
  }
}

=== FILE: instances.dfy ===
/** The instance registry: a table from slideshow id to the control object
    `initSlideshow` returned, filled at initialisation, read by
    `getSlideshow`, and emptied by `destroy`. */
module Instances {
  import opened JsValues
  import opened Effects
  import opened Controller

  /** The control object of one slideshow, known by its identity. */
  datatype Api = Api(serial: nat)

  type InstanceRegistry = map<string, Api>

  /** `getSlideshow(elOrId)`: by id, or by the `id` of an element. */
  datatype Target = ById(id: string) | ByElement(elementId: string)

  function TargetId(t: Target): string
  {
    match t
    case ById(id) => id
    case ByElement(id) => id
  }

  /** `getSlideshow(elOrId)`: the registered control object, or null. */
  function GetSlideshow(reg: InstanceRegistry, target: Target): (r: Option<Api>)
    ensures r.Some? <==> TargetId(target) in reg
    ensures r.Some? ==> r.value == reg[TargetId(target)]
  {
    if TargetId(target) in reg then Some(reg[TargetId(target)]) else None
  }

  /** `initSlideshow(el)`: set the instance up, give the container the
      instance's id (its own, or one made from the clock), and register the
      control object `api` under that id, replacing whatever was registered
      there before; every other id keeps its entry. */
  function InitSlideshow(effects: EffectRegistry, reg: InstanceRegistry, el: Container, now: nat, handle: nat, api: Api)
    : (r: (Slideshow, InstanceRegistry, Container))
    ensures r.0 == Setup(effects, el, now, handle)
    ensures r.2 == el.(id := r.0.config.id)
    ensures el.id != "" ==> r.2.id == el.id
    ensures el.id == "" ==> r.2.id == IdPrefix + Decimal(now)
    ensures GetSlideshow(r.1, ById(r.0.config.id)) == Some(api)
    ensures forall other :: other != r.0.config.id ==> GetSlideshow(r.1, ById(other)) == GetSlideshow(reg, ById(other))
  {
    var st := Setup(effects, el, now, handle);
    (st, reg[st.config.id := api], el.(id := st.config.id))
  }

  /** `destroy()`: pause, clear the container and drop the registry entry
      under the instance's id; every other id keeps its entry. */
  function Destroy(reg: InstanceRegistry, st: Slideshow): (r: (InstanceRegistry, Slideshow))
    ensures GetSlideshow(r.0, ById(st.config.id)) == None
    ensures forall other :: other != st.config.id ==> GetSlideshow(r.0, ById(other)) == GetSlideshow(reg, ById(other))
    ensures Content(r.1) == []
    ensures st.timers.interval.Some? ==> st.timers.interval.value !in r.1.timers.live
    ensures r.1.config == st.config
    ensures r.1 == Teardown(st)
  {
    (reg - {st.config.id}, Teardown(st))
  }

  /** After initialisation the slideshow is found by its id and by its
      container, even one that had no id before; an id nobody registered
      finds nothing. */
  lemma InitThenLookup(effects: EffectRegistry, reg: InstanceRegistry, el: Container, now: nat, handle: nat, api: Api, absent: string)
    requires absent !in reg && absent != ConfigOf(el, now).id
    ensures var r := InitSlideshow(effects, reg, el, now, handle, api);
      && GetSlideshow(r.1, ById(r.0.config.id)) == Some(api)
      && GetSlideshow(r.1, ByElement(r.2.id)) == Some(api)
      && GetSlideshow(r.1, ById(absent)) == None
  {
  }

  /** After `destroy()` the container holds no slides and the id finds
      nothing; destroying a second time changes nothing further. */
  lemma DestroyThenLookup(effects: EffectRegistry, reg: InstanceRegistry, el: Container, now: nat, handle: nat, api: Api)
    ensures var (st, reg1, _) := InitSlideshow(effects, reg, el, now, handle, api);
      var (reg2, st2) := Destroy(reg1, st);
      && Content(st2) == []
      && st2.timers.live == {}
      && GetSlideshow(reg2, ById(st.config.id)) == None
      && Destroy(reg2, st2) == (reg2, st2)
  {
    var (st, reg1, _) := InitSlideshow(effects, reg, el, now, handle, api);
    var (reg2, st2) := Destroy(reg1, st);
    assert st2.timers == Timers(Some(handle), {});
    assert Teardown(st2) == st2;
    assert reg2 - {st2.config.id} == reg2;
  }

  /** Last initialiser wins: a second slideshow with the same id replaces
      the first in the registry, and destroying the first then removes the
      second's entry too. */
  lemma SharedIdLastWins(effects: EffectRegistry, reg: InstanceRegistry, el: Container, now: nat, h1: nat, h2: nat, a1: Api, a2: Api)
    requires el.id != ""
    ensures var (st1, reg1, _) := InitSlideshow(effects, reg, el, now, h1, a1);
      var (st2, reg2, _) := InitSlideshow(effects, reg1, el, now, h2, a2);
      && GetSlideshow(reg2, ById(el.id)) == Some(a2)
      && GetSlideshow(Destroy(reg2, st1).0, ById(el.id)) == None
  {
  }
}

=== FILE: js_values.dfy ===
/** Values of the JavaScript runtime the slideshow controller relies on:
    optional values, thrown errors, the result of `%` on numbers, and the
    decimal text `String(n)` of a non-negative integer. */
module JsValues {

  /** A value that may be absent (`undefined` or `null` in the source). */
  datatype Option<+T> = None | Some(value: T) {

    /** The value, or `default` when absent (the source's `x || default`). */
    function GetOr(default: T): T {
      match this
      case Some(v) => v
      case None => default
    }
  }

  /** An exception thrown by a statement. */
  datatype JsError = TypeError(message: string)

  /** The outcome of a call that either returns a value or throws. */
  datatype Outcome<+T> = Returned(value: T) | Threw(error: JsError)

  /** A JavaScript number, restricted to what index arithmetic can produce:
      an integer or NaN. */
  datatype JsNumber = Num(value: int) | NaN

  /** `a % n` in JavaScript for a divisor that is a length: NaN when the
      divisor is zero, otherwise the remainder truncated toward zero, which
      carries the sign of the dividend. Dafny's own `%` is Euclidean. */
  function JsRem(a: int, n: nat): (r: JsNumber)
    ensures r.NaN? <==> n == 0
    ensures r.Num? ==> -(n as int) < r.value < n
    ensures r.Num? && a >= 0 ==> 0 <= r.value
    ensures r.Num? && a < 0 ==> r.value <= 0
    ensures n > 0 && a >= 0 ==> r == Num(a % n)
    ensures r.Num? ==> (a - r.value) % (n as int) == 0
  {
    if n == 0 then NaN
    else if a >= 0 then
      ModUnique(a - a % n, n, a / n, 0);
      Num(a % n)
    else
      var q, m := (-a) / n, (-a) % n;
      assert a + m == (-q) * n;
      ModUnique(a + m, n, -q, 0);
      Num(-m)
  }

  lemma MulMono(d: int, n: int)
    requires d >= 1 && n > 0
    ensures d * n >= n
  {
  }

  /** Quotient and remainder are unique: `q * n + r` with `0 <= r < n` has
      remainder `r` and quotient `q`. */
  lemma ModUnique(a: int, n: int, q: int, r: int)
    requires n > 0 && 0 <= r < n && a == q * n + r
    ensures a % n == r && a / n == q
  {
    var q', r' := a / n, a % n;
    assert a == q' * n + r';
    assert (q - q') * n == r' - r;
    if q > q' {
      MulMono(q - q', n);
    } else if q < q' {
      MulMono(q' - q, n);
    }
  }

  predicate IsDigit(c: char) {
    '0' <= c <= '9'
  }

  function DigitValue(c: char): nat
    requires IsDigit(c)
  {
    c as int - '0' as int
  }

  function DigitChar(d: nat): (c: char)
    requires d < 10
    ensures IsDigit(c) && DigitValue(c) == d
  {
    ('0' as int + d) as char
  }

  predicate AllDigits(s: string) {
    forall k :: 0 <= k < |s| ==> IsDigit(s[k])
  }

  /** `String(n)` for a non-negative integer: its shortest decimal numeral. */
  function Decimal(n: nat): (s: string)
    ensures 1 <= |s| && AllDigits(s)
    ensures |s| > 1 ==> s[0] != '0'
    decreases n
  {
    if n < 10 then [DigitChar(n)] else Decimal(n / 10) + [DigitChar(n % 10)]
  }

  /** The number a string of decimal digits denotes. */
  function DecimalValue(s: string): nat
    requires AllDigits(s)
  {
    if |s| == 0 then 0 else 10 * DecimalValue(s[..|s| - 1]) + DigitValue(s[|s| - 1])
  }

  /** Reading back the numeral `String(n)` gives `n`. */
  lemma {:induction false} DecimalRoundTrip(n: nat)
    ensures DecimalValue(Decimal(n)) == n
    decreases n
  {
    var s := Decimal(n);
    if n < 10 {
      assert s[..|s| - 1] == [];
    } else {
      DecimalRoundTrip(n / 10);
      assert s[..|s| - 1] == Decimal(n / 10);
      assert DigitValue(s[|s| - 1]) == n % 10;
    }
  }

  /** Distinct numbers have distinct numerals. */
  lemma DecimalInjective(a: nat, b: nat)
    ensures Decimal(a) == Decimal(b) ==> a == b
  {
    DecimalRoundTrip(a);
    DecimalRoundTrip(b);
  }
}

=== FILE: laws.dfy ===
/** Properties that relate several controller operations: wrap-around of the
    index, the visible-slide invariant, idempotence of `show`, the shape of
    a freshly initialised slideshow, and the behaviour of insertion,
    removal, effect switching and autoplay. */
module SlideshowLaws {
  import opened JsValues
  import opened Dom
  import opened Effects
  import opened Controller

  // ------------------------------------------------------ index arithmetic

  /** One step of the wrap-around: the successor of `a % n` modulo `n` is
      `(a + 1) % n`. */
  lemma ModSucc(a: int, n: int)
    requires n > 0
    ensures (if a % n < n - 1 then a % n + 1 else 0) == (a + 1) % n
  {
    var q, r := a / n, a % n;
    assert a == q * n + r;
    if r < n - 1 {
      ModUnique(a + 1, n, q, r + 1);
    } else {
      assert a + 1 == (q + 1) * n + 0;
      ModUnique(a + 1, n, q + 1, 0);
    }
  }

  /** `k` ticks of `next()`. */
  function NextIter(effects: EffectRegistry, st: Slideshow, k: nat): Slideshow
  {
    if k == 0 then st else Next(effects, NextIter(effects, st, k - 1))
  }

  /** `k` applications of `Succ` to `a` among `n` slides. */
  function SuccIter(a: int, k: nat, n: nat): int
    requires n > 0
  {
    if k == 0 then a else Succ(SuccIter(a, k - 1, n), n)
  }

  /** `k` steps of `Succ` from a slide are `k` added modulo `n`. */
  lemma {:induction false} SuccIterIsMod(a: int, k: nat, n: nat)
    requires 0 <= a < n
    ensures SuccIter(a, k, n) == (a + k) % n
  {
    if k == 0 {
      ModUnique(a, n, 0, a);
    } else {
      SuccIterIsMod(a, k - 1, n);
      ModSucc(a + k - 1, n);
      assert a + k - 1 + 1 == a + k;
    }
  }

  /** `k` ticks of `next()` apply `Succ` `k` times to the index and keep
      the slide count. */
  lemma {:induction false} NextIterIsSuccIter(effects: EffectRegistry, st: Slideshow, k: nat)
    requires |st.slides| > 0
    ensures |NextIter(effects, st, k).slides| == |st.slides|
    ensures NextIter(effects, st, k).index == SuccIter(st.index, k, |st.slides|)
  {
    if k > 0 {
      NextIterIsSuccIter(effects, st, k - 1);
      var before := NextIter(effects, st, k - 1);
      assert NextIter(effects, st, k) == Next(effects, before);
    }
  }

  /** After `k` calls of `next()` the index is the start index plus `k`,
      modulo the slide count, and the slide count is unchanged. */
  lemma NextIterIndex(effects: EffectRegistry, st: Slideshow, k: nat)
    requires 0 <= st.index < |st.slides|
    ensures |NextIter(effects, st, k).slides| == |st.slides|
    ensures NextIter(effects, st, k).index == (st.index + k) % |st.slides|
  {
    NextIterIsSuccIter(effects, st, k);
    SuccIterIsMod(st.index, k, |st.slides|);
  }

  /** With `n` slides, `n` calls of `next()` come back to the start, and
      every call on the way keeps the index in range. */
  lemma NextCycles(effects: EffectRegistry, st: Slideshow)
    requires Valid(st) && |st.slides| > 0
    ensures NextIter(effects, st, |st.slides|).index == st.index
    ensures forall k :: 0 <= k ==> 0 <= NextIter(effects, st, k).index < |st.slides|
  {
    NextIterIndex(effects, st, |st.slides|);
    var n := |st.slides|;
    ModUnique(st.index + n, n, 1, st.index);
    forall k | 0 <= k ensures 0 <= NextIter(effects, st, k).index < n {
      NextIterIndex(effects, st, k);
    }
  }

  /** `prev()` undoes `next()` and `next()` undoes `prev()`. */
  lemma PrevNextInverse(effects: EffectRegistry, st: Slideshow)
    requires Valid(st) && |st.slides| > 0
    ensures Prev(effects, Next(effects, st)).index == st.index
    ensures Next(effects, Prev(effects, st)).index == st.index
  {
  }

  /** `prev()` right after `go(0)` lands on the last slide. */
  lemma PrevAfterGoZero(effects: EffectRegistry, st: Slideshow)
    requires |st.slides| > 0
    ensures Prev(effects, Go(effects, st, 0)).index == |st.slides| - 1
  {
  }

  /** `go` only depends on its target modulo the slide count: a target one
      full round further lands on the same slide. */
  lemma GoWraps(effects: EffectRegistry, st: Slideshow, i: int)
    requires |st.slides| > 0
    ensures Go(effects, st, i + |st.slides|).index == Go(effects, st, i).index
    ensures Go(effects, st, i + |st.slides|).slides == Go(effects, st, i).slides
  {
    var n := |st.slides|;
    assert i == (i / n) * n + i % n;
    ModUnique(i + n, n, i / n + 1, i % n);
    assert Wrap(i + n, n) == Wrap(i, n);
  }

  // ------------------------------------------------------------------ show

  /** After `show(i)` for a slide `i` exactly one slide is displayed; for an
      `i` that names no slide, none is. */
  lemma ShowVisibleCount(effects: EffectRegistry, st: Slideshow, i: int)
    ensures VisibleCount(Show(effects, st, i).slides) == (if 0 <= i < |st.slides| then 1 else 0)
  {
    VisibleCountOfOnlyVisibleAt(Show(effects, st, i).slides, i);
  }

  lemma ShowSlideTwice(effects: EffectRegistry, cfg: Config, e: Element, shown: bool)
    ensures ShowSlide(effects, cfg, ShowSlide(effects, cfg, e, shown), shown) == ShowSlide(effects, cfg, e, shown)
  {
    var once := ShowSlide(effects, cfg, e, shown);
    var twice := ShowSlide(effects, cfg, once, shown);
    assert twice.classes == once.classes;
  }

  /** Showing the same slide twice is the same as showing it once. */
  lemma ShowIdempotent(effects: EffectRegistry, st: Slideshow, i: int)
    ensures Show(effects, Show(effects, st, i), i) == Show(effects, st, i)
  {
    var once := Show(effects, st, i);
    var twice := Show(effects, once, i);
    forall j | 0 <= j < |st.slides| ensures twice.slides[j] == once.slides[j] {
      ShowSlideTwice(effects, st.config, st.slides[j], j == i);
    }
    assert twice.slides == once.slides;
  }

  // ------------------------------------------------------------- invariant

  /** Every operation keeps the index in range and every slide but the
      current one hidden. */
  lemma OperationsPreserveValid(effects: EffectRegistry, st: Slideshow, i: int, node: Element,
                                metadata: map<string, string>, name: string, handle: nat)
    requires Valid(st)
    ensures Valid(Next(effects, st)) && Valid(Prev(effects, st)) && Valid(Go(effects, st, i))
    ensures Valid(AddSlide(st, node, metadata))
    ensures Valid(RemoveSlide(effects, st, i))
    ensures Valid(SetFx(effects, st, name)) && Valid(Play(st, handle)) && Valid(Pause(st))
    ensures Valid(Show(effects, st, st.index))
  {
    var added := AddSlide(st, node, metadata);
    forall j | 0 <= j < |added.slides| && j != added.index ensures added.slides[j].display == Hidden {
      if j < |st.slides| {
        assert added.slides[j] == added.slides[..|st.slides|][j];
      }
    }
  }

  /** `show` re-establishes "exactly one slide visible" at the current index
      whenever there is a slide. */
  lemma NavigationShowsExactlyOne(effects: EffectRegistry, st: Slideshow, i: int)
    requires |st.slides| > 0
    ensures VisibleCount(Next(effects, st).slides) == 1
    ensures VisibleCount(Prev(effects, st).slides) == 1
    ensures VisibleCount(Go(effects, st, i).slides) == 1
  {
    VisibleCountOfOnlyVisibleAt(Next(effects, st).slides, Next(effects, st).index);
    VisibleCountOfOnlyVisibleAt(Prev(effects, st).slides, Prev(effects, st).index);
    VisibleCountOfOnlyVisibleAt(Go(effects, st, i).slides, Go(effects, st, i).index);
  }

  /** `addSlide` on a slideshow with no slides leaves one hidden slide and
      none displayed: it does not re-render. */
  lemma AddToEmptyShowsNothing(st: Slideshow, node: Element, metadata: map<string, string>)
    requires |st.slides| == 0
    ensures |AddSlide(st, node, metadata).slides| == 1
    ensures VisibleCount(AddSlide(st, node, metadata).slides) == 0
  {
    var r := AddSlide(st, node, metadata);
    assert r.slides[..0] == [];
  }

  // --------------------------------------------------------- initialisation

  /** Frame selection keeps document order: the frames of two runs of
      children are the frames of each, concatenated. */
  lemma {:induction false} FramesAppend(a: seq<Element>, b: seq<Element>)
    ensures Frames(a + b) == Frames(a) + Frames(b)
  {
    if |a| > 0 {
      assert (a + b)[1..] == a[1..] + b;
      FramesAppend(a[1..], b);
    } else {
      assert a + b == b;
    }
  }

  /** A container with no attributes and at least two non-script children
      starts with `fade`, 3000 ms, no auto-height, no metadata, slide 0
      displayed and autoplay running; one timer tick (`next()`) shows slide
      1 marked `fx-fade` and hides slide 0. */
  lemma DefaultScenario(el: Container, now: nat, handle: nat)
    requires el.fxAttr.None? && el.timeoutAttr.None? && el.autoheightAttr.None? && el.metaAttr.None?
    requires |Frames(el.children)| >= 2
    ensures var st := Setup(Builtin, el, now, handle);
      && st.config.fx == "fade" && st.config.timeout == 3000 && !st.config.autoheight && !st.config.meta
      && st.slides[0].display == Block && FadeClass in st.slides[0].classes
      && handle in st.timers.live
    ensures var r := Next(Builtin, Setup(Builtin, el, now, handle));
      && r.index == 1 && r.slides[1].display == Block && r.slides[0].display == Hidden
      && FadeClass in r.slides[1].classes && FadeClass !in r.slides[0].classes
  {
    var st := Setup(Builtin, el, now, handle);
    var cfg := ConfigOf(el, now);
    var pre := Slideshow(cfg, 0, PrepareAll(Frames(el.children), cfg.meta), View(None, None, false), Timers(None, {}));
    assert st.slides == Show(Builtin, pre, 0).slides;
    assert MarkerClass(Builtin, "fade") == {FadeClass};
  }

  /** Initialisation keeps each child's own data attributes and classes:
      slide `k` carries every `data-*` entry of the `k`-th non-script child
      except the ordinal and the state, and its classes with the effect
      markers stripped and the frame class added (slide 0 also gets the
      configured marker). So a caption written in the markup is what
      `getSlideMeta()` reports right after initialisation. */
  lemma SetupKeepsChildren(effects: EffectRegistry, el: Container, now: nat, handle: nat)
    ensures var st := Setup(effects, el, now, handle);
      forall k :: 0 <= k < |st.slides| ==>
        st.slides[k].dataset - {IndexKey, StateKey} == Frames(el.children)[k].dataset - {IndexKey, StateKey}
    ensures var st := Setup(effects, el, now, handle);
      forall k :: 0 < k < |st.slides| ==>
        st.slides[k].classes == Frames(el.children)[k].classes - FxClasses + {FrameClass}
    ensures var st := Setup(effects, el, now, handle);
      |st.slides| > 0 ==>
        st.slides[0].classes == Frames(el.children)[0].classes - FxClasses + {FrameClass} + MarkerClass(effects, st.config.fx)
    ensures var st := Setup(effects, el, now, handle);
      |Frames(el.children)| > 0 ==>
        GetSlideMeta(st).Returned? && GetSlideMeta(st).value.caption == Data(Frames(el.children)[0], CaptionKey)
  {
  }

  // ------------------------------------------------------ insert and remove

  /** After `addSlide(node, {caption: "hi"})` on `n` slides, `go(n)` shows
      the new slide and `getSlideMeta()` reports index `n` and caption
      `"hi"`. */
  lemma AddThenGoReportsCaption(effects: EffectRegistry, st: Slideshow, node: Element)
    ensures var added := AddSlide(st, node, map[CaptionKey := "hi"]);
      var shown := Go(effects, added, |st.slides|);
      && shown.index == |st.slides|
      && GetSlideMeta(shown) == Returned(SlideMeta(|st.slides|, Some("hi"), GetSlideMeta(shown).value.state, shown.slides[|st.slides|]))
  {
    var added := AddSlide(st, node, map[CaptionKey := "hi"]);
    var shown := Go(effects, added, |st.slides|);
    assert added.slides[|st.slides|].dataset[CaptionKey] == "hi";
    assert CaptionKey != StateKey;
  }

  /** Removing the last slide while it is current resets the index to 0 and
      displays what is now the first slide, the old first slide. */
  lemma RemoveCurrentLastResets(effects: EffectRegistry, st: Slideshow)
    requires Valid(st) && |st.slides| >= 2 && st.index == |st.slides| - 1
    ensures var r := RemoveSlide(effects, st, |st.slides| - 1);
      && r.index == 0 && r.slides[0].display == Block && SameElement(r.slides[0], st.slides[0])
      && VisibleCount(r.slides) == 1
  {
    var r := RemoveSlide(effects, st, |st.slides| - 1);
    VisibleCountOfOnlyVisibleAt(r.slides, 0);
  }

  /** Ordinals are assigned once and never renumbered: after removing the
      first of `n` freshly numbered slides, a slide added next gets ordinal
      `n - 1`, the ordinal the last remaining slide already carries. */
  lemma RemoveThenAddRepeatsOrdinal(effects: EffectRegistry, st: Slideshow, node: Element, metadata: map<string, string>)
    requires |st.slides| >= 2 && IndexKey !in metadata
    requires forall k :: 0 <= k < |st.slides| ==> IndexKey in st.slides[k].dataset && st.slides[k].dataset[IndexKey] == Decimal(k)
    ensures var r := AddSlide(RemoveSlide(effects, st, 0), node, metadata);
      var n := |st.slides|;
      && |r.slides| == n
      && IndexKey in r.slides[n - 2].dataset && IndexKey in r.slides[n - 1].dataset
      && r.slides[n - 2].dataset[IndexKey] == r.slides[n - 1].dataset[IndexKey] == Decimal(n - 1)
  {
    var n := |st.slides|;
    var removed := RemoveSlide(effects, st, 0);
    var r := AddSlide(removed, node, metadata);
    assert SameElement(removed.slides[n - 2], st.slides[n - 1]);
    assert IndexKey != StateKey;
    assert IndexKey in st.slides[n - 1].dataset - {StateKey};
    assert r.slides[n - 2] == r.slides[..n - 1][n - 2];
  }

  // ------------------------------------------------------- effects and meta

  /** After `setFx('slide')` the next transition marks the shown slide with
      `fx-slide` and leaves no built-in marker on any other slide;
      `setFx` with an unknown name keeps the effect. */
  lemma SetFxSlideChangesMarker(st: Slideshow, unknown: string)
    requires |st.slides| > 0 && unknown !in Builtin
    ensures var r := Next(Builtin, SetFx(Builtin, st, "slide"));
      && SlideClass in r.slides[r.index].classes && FadeClass !in r.slides[r.index].classes
      && forall j :: 0 <= j < |r.slides| && j != r.index ==> r.slides[j].classes !! FxClasses
    ensures SetFx(Builtin, st, unknown).config.fx == st.config.fx
  {
    assert MarkerClass(Builtin, "slide") == {SlideClass};
  }

  /** A custom effect whose class is not a built-in marker is never
      stripped: it stays on a slide after another slide is shown. */
  lemma CustomMarkerIsNotStripped(effects: EffectRegistry, st: Slideshow, i: int, j: int, c: string)
    requires 0 <= j < |st.slides| && j != i && c in st.slides[j].classes && c !in FxClasses
    ensures c in Show(effects, st, i).slides[j].classes
  {
  }

  /** With metadata tracking off, `getSlideMeta()` reports `active` for a
      slide that never received a state, whatever its visibility. */
  lemma MetaStateDefaultsToActive(st: Slideshow)
    requires 0 <= st.index < |st.slides| && StateKey !in st.slides[st.index].dataset
    ensures GetSlideMeta(st).Returned? && GetSlideMeta(st).value.state == ActiveState
  {
  }

  /** On a valid slideshow `getSlideMeta()` throws exactly when there are no
      slides. */
  lemma GetSlideMetaThrowsOnlyWhenEmpty(st: Slideshow)
    requires Valid(st)
    ensures GetSlideMeta(st).Threw? <==> |st.slides| == 0
  {
  }

  // ---------------------------------------------------------------- timers

  /** `pause()` right after `play()` stops the timer `play()` started. */
  lemma PlayThenPause(st: Slideshow, handle: nat)
    requires handle !in st.timers.live
    ensures Pause(Play(st, handle)).timers.live == st.timers.live
  {
  }

  /** Calling `play()` twice leaks the first timer: `pause()` stops only the
      second. */
  lemma PlayTwiceLeaksTimer(st: Slideshow, h1: nat, h2: nat)
    requires h1 != h2
    ensures h1 in Pause(Play(Play(st, h1), h2)).timers.live
    ensures h2 !in Pause(Play(Play(st, h1), h2)).timers.live
  {
  }
}
